=== FILE: README.md ===
# Line-oriented TCP server and CSV row codec — a Dafny model

This project models two pure cores of the `SampleLibrary` of a WinForms
sample application.

**The TCP server utility** (`TcpServerUtility`). It listens on one address,
accepts clients into a registry keyed by an `ip:port` endpoint text, and runs
one reader loop per client. Each reader frames the byte stream into
newline-terminated lines and feeds them into one shared inbound queue, which
the UI polls with `Read`. `SendAll` broadcasts a newline-framed message to
every registered client. `Dispose` shuts everything down once, provided every client can be closed; when one cannot, each call stops the listener again and the server is never marked disposed. Here the server
is an immutable record: listener, registry, queue, a disposed flag and the
logger state. Each operation is a transition function. Whatever the network
decides is a parameter:

- the chunks a stream returns, each with its "data still available" flag;
- which writes succeed, and which clients are still connected when disposed;
- whether the port can be bound;
- how literals parse and host names resolve.

Modules:

- `LineFraming` (`framing.dfy`): the wire protocol. `Framed` is what `Send`
  writes. `Receive` is `ReadAsync`, a function of the reads delivered.
  `TrimNewlines` is `TrimEnd('\n')`. `ReadLoop` is `ReadLoopAsync`.
- `InboundQueue` (`inbound_queue.dfy`): the queue and its non-blocking `Poll`.
- `ClientRegistry` (`registry.dfy`) with `Decimal` (`decimal.dfy`): endpoint
  keys and `Dictionary.Add`. The registry is a sequence of entries in
  insertion order, which is how the dictionary enumerates when nothing is
  removed.
- `BindAddress` (`bind_address.dfy`): how `Listen` picks the address to bind
  and when it builds a listener.
- `TcpServer` (`tcp_server.dfy`): the server record and its transitions:
  `Create`, `Accept`, `Deliver`, `Read`, `SendAll` and `Dispose`.

**The CSV service** (`CsvFileService`), modelled in `CsvCodec` (`csv_codec.dfy`).
Reading splits each line at every comma. Writing joins fields with commas.
The list overloads return -1 for `null`. There is no quoting. The file reader
and writer underneath are abstract: the lines read are an input, and the
writer is a function parameter whose return code is passed through.

Text is modelled as characters rather than encoded bytes. Two details of
the code matter for the contracts:

- `TrimEnd('\n')` removes every trailing newline of a received line, not
  just one.
- `Dictionary.Add` throws on a key already present; it does not overwrite.

## Model

| member | source | states |
|---|---|---|
| LineFraming.TrimNewlines | SampleLibrary/TcpServerUtility.cs:195 | The result is a prefix of the input and does not end in a newline. Everything removed is newline, so inner newlines are kept and the whole trailing run goes. |
| LineFraming.TrimFramed | SampleLibrary/TcpServerUtility.cs:227 | A message not ending in a newline, framed by `Send` and then trimmed on receipt, comes back exactly. |
| LineFraming.TrimFramedLossy | SampleLibrary/TcpServerUtility.cs:195 | A message that ends in newlines loses all of them in the same round trip, so it comes back strictly shorter. |
| LineFraming.TrimIdempotent | SampleLibrary/TcpServerUtility.cs:195 | Trimming twice is the same as trimming once. |
| LineFraming.Receive | SampleLibrary/TcpServerUtility.cs:167-195 | Characterizes one `ReadAsync` completely. It waits exactly when every read so far is non-empty and does not stop the loop. It disconnects at the first zero-length read, after only continuing reads. It yields a line at the first read that leaves no data available and ends in a newline; the line is the in-order concatenation of all reads up to there, trimmed. |
| LineFraming.ReceiveStopsAt | SampleLibrary/TcpServerUtility.cs:184-186 | Reading ends at the first read that has no more data available and ends in a newline, and at no earlier read. |
| LineFraming.ReceiveDisconnectsAt | SampleLibrary/TcpServerUtility.cs:174-179 | A zero-length read after continuing reads gives the disconnect sentinel. The partial data read before it is dropped. |
| LineFraming.ReceiveIgnoresLaterReads | SampleLibrary/TcpServerUtility.cs:167-186 | Once a frame ends, later reads do not affect it; they are left for the next call. |
| LineFraming.ReceiveFramed | SampleLibrary/TcpServerUtility.cs:167-195 | A message without newlines, framed by `Send` and delivered in any chunking of 1..256 characters per read with nothing available after the last read, is received exactly. |
| LineFraming.Framed | SampleLibrary/TcpServerUtility.cs:227 | `Send` writes the message followed by exactly one newline. |
| LineFraming.ReadLoop | SampleLibrary/TcpServerUtility.cs:141-153 | The reader loop enqueues at most one entry per read it consumed. |
| LineFraming.ReadLoopAppend | SampleLibrary/TcpServerUtility.cs:145-151 | The loop enqueues every `ReadAsync` result in order: once the reads so far end exactly on a frame boundary, whatever follows is enqueued behind their entries, as if the loop started afresh there. |
| LineFraming.ConversationEndsOnFrame | SampleLibrary/TcpServerUtility.cs:169-186 | A conversation of framed messages, each sent as one burst, ends exactly on a frame boundary. |
| LineFraming.ReadLoopConversation | SampleLibrary/TcpServerUtility.cs:145-151 | A client's messages, each sent as its own burst, are enqueued exactly and in the order sent. |
| LineFraming.ReadLoopAfterClose | SampleLibrary/TcpServerUtility.cs:145-151 | After the peer closes, each further zero-length read enqueues another disconnect sentinel, because the loop does not stop on disconnect. |
| LineFraming.ReadLoopConversationThenClose | SampleLibrary/TcpServerUtility.cs:145-151 | A client that sends its messages and then closes gets its messages enqueued in order, followed by one disconnect sentinel per later read. |
| InboundQueue.Poll | SampleLibrary/TcpServerUtility.cs:235-252 | An empty queue gives nothing and stays unchanged. Otherwise the result is the oldest entry, and the rest stay queued in order. |
| InboundQueue.PollNothing | SampleLibrary/TcpServerUtility.cs:237-251 | A poll returns nothing exactly when the queue is empty or its head is the disconnect sentinel. |
| InboundQueue.PollAfterEnqueue | SampleLibrary/TcpServerUtility.cs:148 | Entries enqueued behind a non-empty queue do not overtake its head. |
| InboundQueue.DrainFifo | SampleLibrary/TcpServerUtility.cs:241 | Polling n times returns the n oldest entries in arrival order and leaves the rest queued. |
| InboundQueue.DrainEmpty | SampleLibrary/TcpServerUtility.cs:251 | Any number of polls of an empty queue return nothing and leave it empty. |
| Decimal.NatToString | SampleLibrary/TcpServerUtility.cs:126 | `Port.ToString()` is a non-empty numeral of decimal digits, with no leading zero except for port 0. |
| Decimal.ValueOfNatToString | SampleLibrary/TcpServerUtility.cs:126 | Reading the numeral back as a decimal number gives the port. |
| Decimal.NatToStringInjective | SampleLibrary/TcpServerUtility.cs:126 | Different ports have different decimal texts. |
| ClientRegistry.EndpointKey | SampleLibrary/TcpServerUtility.cs:125-126 | The key is the address text, then a colon, then the port's numeral. |
| ClientRegistry.EndpointKeyInjective | SampleLibrary/TcpServerUtility.cs:137 | The `ip:port` key determines the endpoint, even when an IPv6 address text contains colons. |
| ClientRegistry.AsMapLookup | SampleLibrary/TcpServerUtility.cs:21 | With unique keys, each entry is found under its own key. |
| ClientRegistry.Add | SampleLibrary/TcpServerUtility.cs:137 | Adding fails exactly when the key is present, and then changes nothing. On success the dictionary gains exactly that key with that connection, the old entries keep their order, the new entry comes last, and keys stay unique. |
| BindAddress.FirstIPv4 | SampleLibrary/TcpServerUtility.cs:93-101 | Finds the first address of the IPv4 family, or reports that there is none. |
| BindAddress.SelectAddress | SampleLibrary/TcpServerUtility.cs:79-103 | `null` or empty text binds the IPv6 wildcard. A parseable literal is used as is. An unknown host is an error. A host with no IPv4 address fails to parse. |
| BindAddress.SelectHostName | SampleLibrary/TcpServerUtility.cs:86-103 | For a host name, binding succeeds exactly when the host has an IPv4 address, and the address bound is the first one. |
| BindAddress.Listen | SampleLibrary/TcpServerUtility.cs:77-111 | An existing listener is kept with its own address and port. A new one uses the selected address and the requested port. An address error is passed through. After a successful address selection, a port outside 0..65535 is refused, and starting succeeds exactly when the port is in range and can be bound. |
| TcpServer.Create | SampleLibrary/TcpServerUtility.cs:48-63 | Construction succeeds exactly when the address is selected, the port is in 0..65535 and the port is bound. The server starts with a started listener, an empty registry and queue, nothing closed, not disposed, and the logger open. |
| TcpServer.Register | SampleLibrary/TcpServerUtility.cs:137 | Registration fails exactly on a key already present. Otherwise it adds exactly one entry under the key, and nothing else in the server changes. |
| TcpServer.AcceptAsWritten | SampleLibrary/TcpServerUtility.cs:125-137 | As written, the key is the local endpoint. Accepting fails exactly when that key is already registered. Otherwise the dictionary gains exactly that key with that connection, and nothing else in the server changes. |
| TcpServer.AcceptAsWrittenCollides | SampleLibrary/TcpServerUtility.cs:125-137 | As written, a second client on the same local endpoint is refused with a duplicate key. |
| TcpServer.AcceptAsWrittenTwoClients | SampleLibrary/TcpServerUtility.cs:125-137 | Two clients at 127.0.0.1:2001 from different ports: the first is registered and the second is refused. |
| TcpServer.Accept | SampleLibrary/TcpServerUtility.cs:117-138 | Corrected: keyed by the remote endpoint. It fails exactly when that key is present; otherwise the registry gains exactly that entry, and nothing else in the server changes. |
| TcpServer.AcceptAll | SampleLibrary/TcpServerUtility.cs:121-138 | The accept loop changes only the registry. |
| TcpServer.AcceptAllDistinctPeers | SampleLibrary/TcpServerUtility.cs:121-138 | Clients from distinct peers are all accepted, one entry each. The key set grows by exactly their keys, and keys stay unique. |
| TcpServer.Deliver | SampleLibrary/TcpServerUtility.cs:145-151 | A reader loop only appends to the queue: older entries are kept in place, at most one new entry per read, and nothing else changes. |
| TcpServer.Read | SampleLibrary/TcpServerUtility.cs:235-252 | `Read` gives nothing and changes nothing on an empty queue. Otherwise it returns the head and drops it, and nothing else changes. |
| TcpServer.SendDeliverRead | SampleLibrary/TcpServerUtility.cs:145-151 | End to end: a client's conversation received into an empty queue is polled back message by message in send order, and the queue is then empty. |
| TcpServer.SendEach | SampleLibrary/TcpServerUtility.cs:204-208 | One framed send per entry in enumeration order, to that entry's client. A client that is closed or no longer connected makes `GetStream()` throw before anything is written to it; otherwise the write is attempted and may throw. The first exception ends the loop, and that client is reported. |
| TcpServer.SendAll | SampleLibrary/TcpServerUtility.cs:202-221 | The broadcast goes through exactly when every registered client is still connected, not yet closed, and its write succeeds. Then there is exactly one send of the framed message per registered client, in registry order, and to nothing else. Otherwise a prefix is sent and a registered client is reported as failing. |
| TcpServer.SendToDisconnected | SampleLibrary/TcpServerUtility.cs:206-221 | A broadcast whose first registered client is no longer connected throws at that client's `GetStream()` and writes nothing. |
| TcpServer.SendAfterDispose | SampleLibrary/TcpServerUtility.cs:202-221 | After a `Dispose()` that closed the first registered client, which includes every disposal that went through, a broadcast throws at that client and writes nothing. |
| TcpServer.SendAllDelivers | SampleLibrary/TcpServerUtility.cs:202-209 | Each registered client's reader recovers the broadcast message from any chunking of what was sent to it. |
| TcpServer.CloseEach | SampleLibrary/TcpServerUtility.cs:271-277 | The registered clients are closed in registry order, each only if `GetStream()` succeeds for it: it is connected and not closed yet. No client is closed twice. The loop stops at the first client for which `GetStream()` throws and reports it. |
| TcpServer.CloseEachCompletes | SampleLibrary/TcpServerUtility.cs:271-277 | The closing loop gets through exactly when every registered client is connected, not yet closed, and registered once. |
| TcpServer.Dispose | SampleLibrary/TcpServerUtility.cs:257-287 | A disposed server is left as it is. Without `disposing` only the flag is set. With it, the listener is stopped and the clients closed. The call ends normally exactly when every client can be closed; then the logger is disposed and the flag set. Otherwise the exception leaves the flag clear and the logger open. The registry and queue are never changed. |
| TcpServer.DisposeClosesFresh | SampleLibrary/TcpServerUtility.cs:267-277 | A managed disposal first stops the listener. It closes only clients not closed before, and records them as closed. |
| TcpServer.DisposeIdempotent | SampleLibrary/TcpServerUtility.cs:261-286 | After a disposal that went through, a further disposal of either kind has no effect and leaves the state unchanged. |
| TcpServer.DisposeRetry | SampleLibrary/TcpServerUtility.cs:261-286 | When some client cannot be closed, the first `Dispose()` throws with the flag clear. The next one stops the listener again and then throws at the first registered client. |
| TcpServer.DisposeTimes | SampleLibrary/TcpServerUtility.cs:296-302 | Repeated `Dispose()` calls begin with exactly the effects of the first call and never change the registry or the queue. |
| TcpServer.DisposeClosesOnce | SampleLibrary/TcpServerUtility.cs:296-302 | When every client can be closed, however often `Dispose()` runs, the listener is stopped once and the logger disposed once. Each registered client is closed exactly as often as it is registered, and nothing else is closed. |
| TcpServer.DisposeKeepsFailing | SampleLibrary/TcpServerUtility.cs:296-302 | When some client cannot be closed, each of `n` calls stops the listener. Only the first call closes clients. The logger is never disposed, and the flag is never set. |
| CsvCodec.Split | SampleLibrary/CsvFileService.cs:34 | Splitting gives one more field than the line has commas. No field contains a comma, and rejoining the fields gives the line back. |
| CsvCodec.SplitNoComma | SampleLibrary/CsvFileService.cs:34 | A line without a comma gives a single field equal to the whole line. |
| CsvCodec.Join | SampleLibrary/CsvFileService.cs:40 | No fields join to the empty line; a single field joins to itself. |
| CsvCodec.JoinCommas | SampleLibrary/CsvFileService.cs:40 | Comma-free fields are joined with exactly one comma between each two. |
| CsvCodec.SplitJoin | SampleLibrary/CsvFileService.cs:40 | Round trip: at least one field and no commas in any field means that splitting the joined line gives the fields back. |
| CsvCodec.SplitJoinEmpty | SampleLibrary/CsvFileService.cs:40 | With no fields the round trip fails: the empty line splits into one empty field. |
| CsvCodec.ReadRows | SampleLibrary/CsvFileService.cs:30-36 | There is one row per line, in line order. Each row has one field more than its line has commas, is comma-free, and rejoins to its line, which determines `line.Split(',')`. |
| CsvCodec.JoinRows | SampleLibrary/CsvFileService.cs:59-63 | The row-list overload turns each row into one joined line, in row order. |
| CsvCodec.JoinReadRows | SampleLibrary/CsvFileService.cs:30-36 | Rows read from lines and written back reproduce the lines. |
| CsvCodec.ReadJoinRows | SampleLibrary/CsvFileService.cs:59-63 | Rows written and read back are unchanged when every row has a field and none holds a comma. |
| CsvCodec.WriteFields | SampleLibrary/CsvFileService.cs:38-41 | The `params` overload forwards exactly one line, the fields joined with commas, and returns the writer's code. |
| CsvCodec.WriteFieldsReadBack | SampleLibrary/CsvFileService.cs:38-41 | That line reads back as the fields given, when there is at least one field and none holds a comma. |
| CsvCodec.WriteLines | SampleLibrary/CsvFileService.cs:43-50 | `null` returns -1 without calling the writer. Otherwise the lines go to the writer unchanged, and its code is returned. |
| CsvCodec.WriteRows | SampleLibrary/CsvFileService.cs:52-66 | `null` returns -1 without calling the writer. Otherwise the writer gets one joined line per row, in row order, and its code is returned. |
| CsvCodec.WriteRowsReadBack | SampleLibrary/CsvFileService.cs:52-66 | What the row overload forwards reads back as its rows, when every row has a field and none holds a comma. |

## Left out

- Sockets, `TcpListener`, `NetworkStream`, DNS and the 10-second read and write timeouts are operating-system I/O. The model takes their outcomes as parameters: the read sequence, the available flags, `writeOk`, `connected`, `portFree`, `parse` and `resolve`.
- Tasks, `async void`, cancellation tokens and the 10-second wait for the previous accept task are left out because their point is concurrency. The accept loop and each reader loop are sequential functions over what they receive. Cancellation is modelled as the input running out. Interleaving across clients is not modelled; per-client order is.
- `BlockingCollection` thread safety and the 1-second timed take are left out; only the FIFO behaviour is kept. `TryAdd` on a collection that is never completed always succeeds, so the logged failure path is not modelled.
- `LineFraming.ReadLoop`: reads never throw in the model. In the program, `ns.ReadAsync` on a reset connection (line 172) and `client.GetStream()` on a client no longer connected (line 159) throw. That exception escapes the `async void` reader loop. With no synchronization context to return to, .NET rethrows it on the thread pool, which normally ends the whole process, not just that loop. The model does not describe this.
- `Encoding.UTF8` and `GetEncoding` are a foreign library. Text is characters, one unit each.
- `LineFraming.Receive`, `LineFraming.ReceiveFramed` and `TcpServer.SendAllDelivers` describe the program only for an encoding in which the newline is the single byte 0x0A and that byte encodes nothing else, such as UTF-8 (the default) or ASCII. Under UTF-16 the byte test at line 186 fires too early or not at all, and that is not modelled. A read's 256-byte limit is modelled as 256 characters.
- `Logger` is a sink with no behaviour to verify. Only its disposal appears, as an effect.
- `FileManager.FileRead` and `FileWrite` are file I/O and are not part of this model. The lines read are an input, and the writer is an abstract function whose return code is passed through.
- `null` values are not modelled, except for the two list arguments themselves. `string.Join` writes a `null` field as the empty string. It throws for a `null` `params` array, and for a `null` row inside the row list (CsvFileService.cs:62). A `null` line inside the line list is passed to the writer unchanged.
- Exceptions that end the accept loop after disposal, once the listener has stopped, are not modelled. Whether the IPv6 wildcard also accepts IPv4 peers depends on the socket library and is not modelled either.
- `BindAddress.Listen`: the port is an integer checked against 0..65535. Port 0, which asks the operating system for a free port, is recorded as 0.
- `TcpServer.Dispose` and `TcpServer.SendAll`: whether a client's socket is still connected, and so whether `GetStream()` succeeds, is a parameter, `connected`. It is not tied to the outcome of earlier writes, although a failed write typically leaves the socket disconnected.
- The UI form and its button dispatch are outside the core.
- `Listen` cancels a previous accept loop before rebinding. Since `Listen` is only reached from the constructor, only its listener part (`BindAddress.Listen`) is modelled.
- `TcpServer.SendAll`: enumeration order is the registry's insertion order, as `Dictionary` enumerates without removals. The language does not promise that order.

## Findings

| source | as written | input that shows it | evidently intended | confidence | as-written member | corrected member |
|---|---|---|---|---|---|---|
| SampleLibrary/TcpServerUtility.cs:125-137 | The registry key is built from `client.Client.LocalEndPoint`, which is the listener's own address and port, so every client reaching it through one address gets the same key and `Dictionary.Add` throws for the second one. The exception escapes the `async void` accept loop; with no synchronization context, .NET rethrows it on the thread pool, which normally ends the whole process, so no later client is accepted. The refused client's reader task, started at line 135 before the `Add`, still feeds the queue | two clients connecting to 127.0.0.1:2001 from ports 50001 and 50002 | key each connection by its remote endpoint, which differs between connections, so every client is registered | high (not executed) | TcpServer.AcceptAsWrittenTwoClients | TcpServer.AcceptAllDistinctPeers |

The rest of the model registers clients through the corrected `TcpServer.Accept`.
`TcpServer.AcceptAsWritten` keeps the code's behaviour for comparison.

=== FILE: bind_address.dfy ===
/** How `Listen` chooses the address to bind, and when it builds a listener.
    Parsing a literal and resolving a host name are foreign calls; they are
    parameters here. */
module BindAddress {
  import opened Wrappers

  datatype AddressFamily = InterNetwork | InterNetworkV6

  /** An IP address: its family and the text `ToString()` gives for it. */
  datatype IpAddress = IpAddress(family: AddressFamily, text: string)

  /** The IPv6 wildcard address, bound when no host text is given. */
  const IPv6Any: IpAddress := IpAddress(InterNetworkV6, "::")

  datatype ListenError =
    | HostNotFound(host: string)      // the resolver throws for the name
    | FormatError(text: string)       // `IPAddress.Parse` throws for the text
    | PortOutOfRange(requested: int)  // the listener's constructor throws for the port
    | BindError(port: nat)            // starting the listener throws

  /** `IPAddress.TryParse`: the address a literal denotes, if it is one. */
  type Parser = string -> Option<IpAddress>

  /** `Dns.GetHostEntry`: the addresses of a host, or `None` when it throws. */
  type Resolver = string -> Option<seq<IpAddress>>

  /** Position of the first IPv4 address of a resolution. */
  function FirstIPv4(addrs: seq<IpAddress>): (r: Option<nat>)
    ensures r.Some? ==> r.value < |addrs| && addrs[r.value].family == InterNetwork
    ensures r.Some? ==> forall j :: 0 <= j < r.value ==> addrs[j].family != InterNetwork
    ensures r.None? ==> forall j :: 0 <= j < |addrs| ==> addrs[j].family != InterNetwork
  {
    if |addrs| == 0 then None
    else if addrs[0].family == InterNetwork then Some(0)
    else match FirstIPv4(addrs[1..])
      case None => None
      case Some(k) => Some(k + 1)
  }

  /** The address `Listen` binds for the host text it was given (`None` is a
      `null` string): the wildcard for no text; the literal itself when the
      text parses; otherwise the first IPv4 address of the host, which is
      turned into text and parsed again. With no IPv4 address the host name
      itself is parsed, and that fails. */
  function SelectAddress(host: Option<string>, parse: Parser, resolve: Resolver): (r: Result<IpAddress, ListenError>)
    ensures host.None? || host.value == [] ==> r == Ok(IPv6Any)
    ensures host.Some? && host.value != [] && parse(host.value).Some? ==> r == Ok(parse(host.value).value)
    ensures host.Some? && host.value != [] && parse(host.value).None? && resolve(host.value).None? ==>
      r == Err(HostNotFound(host.value))
    ensures (&& host.Some? && host.value != [] && parse(host.value).None? && resolve(host.value).Some?
             && FirstIPv4(resolve(host.value).value).None?) ==> r == Err(FormatError(host.value))
  {
    if host.None? || host.value == [] then Ok(IPv6Any)
    else
      var name := host.value;
      match parse(name)
      case Some(a) => Ok(a)
      case None =>
        match resolve(name)
        case None => Err(HostNotFound(name))
        case Some(addrs) =>
          var text := match FirstIPv4(addrs)
            case Some(k) => addrs[k].text
            case None => name;
          match parse(text)
          case Some(a) => Ok(a)
          case None => Err(FormatError(text))
  }

  /** For a host name, given a parser that reads back the text of every
      resolved address, the address bound is the first IPv4 address of the
      host, and it fails exactly when the host has none. */
  lemma SelectHostName(host: string, parse: Parser, resolve: Resolver)
    requires host != [] && parse(host).None?
    requires resolve(host).Some?
    requires forall a :: a in resolve(host).value ==> parse(a.text) == Some(a)
    ensures SelectAddress(Some(host), parse, resolve).Ok? <==>
      exists a :: a in resolve(host).value && a.family == InterNetwork
    ensures SelectAddress(Some(host), parse, resolve).Ok? ==>
      var addrs := resolve(host).value;
      var k := FirstIPv4(addrs).value;
      SelectAddress(Some(host), parse, resolve).value == addrs[k]
  {
    var addrs := resolve(host).value;
    match FirstIPv4(addrs)
    case Some(k) =>
      assert addrs[k] in addrs;
    case None =>
  }

  /** Largest port number a listener accepts (`IPEndPoint.MaxPort`). */
  const MaxPort: int := 65535

  predicate ValidPort(port: int) {
    0 <= port <= MaxPort
  }

  /** The listening socket: where it is bound and whether it was started. */
  datatype Listener = Listener(address: IpAddress, port: nat, started: bool)

  /** The listener part of `Listen`: an existing listener is kept as it is,
      whatever address and port are asked for; only when there is none is
      one built, for the selected address, and its constructor refuses a
      port outside 0..65535. Then it is started, which fails when the port
      cannot be bound (`portFree` stands for the operating system's answer;
      starting a listener already started does nothing). */
  function Listen(current: Option<Listener>, host: Option<string>, port: int, parse: Parser, resolve: Resolver, portFree: bool): (r: Result<Listener, ListenError>)
    ensures current.Some? && current.value.started ==> r == Ok(current.value)
    ensures current.Some? && r.Ok? ==>
      r.value.address == current.value.address && r.value.port == current.value.port
    ensures current.None? && r.Ok? ==>
      r.value.port == port && SelectAddress(host, parse, resolve) == Ok(r.value.address)
    ensures r.Ok? ==> r.value.started
    ensures current.None? && SelectAddress(host, parse, resolve).Ok? ==>
      (r.Ok? <==> ValidPort(port) && portFree)
    ensures current.None? && SelectAddress(host, parse, resolve).Ok? && !ValidPort(port) ==>
      r == Err(PortOutOfRange(port))
    ensures SelectAddress(host, parse, resolve).Err? && current.None? ==>
      r == Err(SelectAddress(host, parse, resolve).error)
  {
    var built := match current
      case Some(l) => Ok(l)
      case None =>
        match SelectAddress(host, parse, resolve)
        case Err(e) => Err(e)
        case Ok(a) =>
          if ValidPort(port) then Ok(Listener(a, port, false)) else Err(PortOutOfRange(port));
    match built
    case Err(e) => Err(e)
    case Ok(l) =>
      if l.started then Ok(l)
      else if portFree then Ok(l.(started := true))
      else Err(BindError(l.port))
  }
}

=== FILE: csv_codec.dfy ===
/** The CSV helper: rows are lines split at every comma, and fields are
    written back joined with commas. There is no quoting and no escaping. The
    file reader and writer underneath are not part of this model: the lines
    read are an input, and the writer is a parameter whose return code is
    passed through. */
module CsvCodec {
  import opened Wrappers

  const Comma: char := ','

  function CommaCount(s: string): nat {
    if |s| == 0 then 0 else CommaCount(s[..|s| - 1]) + (if s[|s| - 1] == Comma then 1 else 0)
  }

  predicate CommaFree(fields: seq<string>) {
    forall i :: 0 <= i < |fields| ==> Comma !in fields[i]
  }

  lemma CommaFreeTail(fields: seq<string>)
    requires |fields| > 0
    ensures CommaFree(fields) ==> CommaFree(fields[1..])
  {
    if CommaFree(fields) {
      forall i | 0 <= i < |fields[1..]|
        ensures Comma !in fields[1..][i]
      {
        assert fields[1..][i] == fields[i + 1];
      }
    }
  }

  /** `string.Join(",", fields)`: the first field, then each further field
      after a comma; no fields give the empty string, and a single field is
      the line itself. */
  function Join(fields: seq<string>): (line: string)
    ensures |fields| == 0 ==> line == []
    ensures |fields| == 1 ==> line == fields[0]
  {
    if |fields| == 0 then [] else fields[0] + Separated(fields[1..])
  }

  function Separated(fields: seq<string>): string {
    if |fields| == 0 then [] else [Comma] + fields[0] + Separated(fields[1..])
  }

  /** Each field after a comma: one comma per field when the fields are
      comma-free. */
  lemma {:induction false} SeparatedCommas(fields: seq<string>)
    requires CommaFree(fields)
    ensures CommaCount(Separated(fields)) == |fields|
    decreases |fields|
  {
    if |fields| > 0 {
      var tail := Separated(fields[1..]);
      CommaFreeTail(fields);
      SeparatedCommas(fields[1..]);
      CommaCountZero(fields[0]);
      CommaCountAppend([Comma], fields[0]);
      CommaCountAppend([Comma] + fields[0], tail);
      assert [Comma][..0] == [];
    }
  }

  /** Joining comma-free fields puts exactly one comma between each two. */
  lemma JoinCommas(fields: seq<string>)
    requires |fields| > 0 && CommaFree(fields)
    ensures CommaCount(Join(fields)) == |fields| - 1
  {
    CommaFreeTail(fields);
    SeparatedCommas(fields[1..]);
    CommaCountZero(fields[0]);
    CommaCountAppend(fields[0], Separated(fields[1..]));
  }

  /** Joining in front of a non-empty tail. */
  lemma JoinCons(f: string, rest: seq<string>)
    requires |rest| > 0
    ensures Join([f] + rest) == f + [Comma] + Join(rest)
  {
    assert ([f] + rest)[1..] == rest;
  }

  lemma {:induction false} CommaCountAppend(a: string, b: string)
    ensures CommaCount(a + b) == CommaCount(a) + CommaCount(b)
    decreases |b|
  {
    if |b| == 0 {
      assert a + b == a;
    } else {
      var b' := b[..|b| - 1];
      assert (a + b)[..|a + b| - 1] == a + b';
      CommaCountAppend(a, b');
    }
  }

  lemma {:induction false} CommaCountZero(s: string)
    ensures CommaCount(s) == 0 <==> Comma !in s
    decreases |s|
  {
    if |s| > 0 {
      var s' := s[..|s| - 1];
      CommaCountZero(s');
      assert s == s' + [s[|s| - 1]];
    }
  }

  /** `line.Split(',')`: the pieces between the commas, in order. */
  function Split(line: string): (fields: seq<string>)
    ensures |fields| == CommaCount(line) + 1
    ensures CommaFree(fields)
    ensures Join(fields) == line
    decreases |line|
  {
    if |line| == 0 then [[]]
    else
      var rest := Split(line[1..]);
      CommaCountCons(line);
      if line[0] == Comma then
        JoinCons([], rest);
        [[]] + rest
      else
        var first := [line[0]] + rest[0];
        var fields := [first] + rest[1..];
        SplitJoinStep(line, rest);
        fields
  }

  lemma CommaCountCons(line: string)
    requires |line| > 0
    ensures CommaCount(line) == CommaCount(line[1..]) + (if line[0] == Comma then 1 else 0)
  {
    assert line == [line[0]] + line[1..];
    CommaCountAppend([line[0]], line[1..]);
    assert [line[0]][..0] == [];
  }

  /** Putting a character in front of the first field puts it in front of
      the joined line. */
  lemma JoinPrepend(c: char, fields: seq<string>)
    requires |fields| > 0
    ensures Join([[c] + fields[0]] + fields[1..]) == [c] + Join(fields)
  {
    var g := [[c] + fields[0]] + fields[1..];
    var tail := Separated(fields[1..]);
    assert g[0] == [c] + fields[0];
    assert g[1..] == fields[1..];
    assert Join(g) == g[0] + tail;
    assert Join(fields) == fields[0] + tail;
    assert ([c] + fields[0]) + tail == [c] + (fields[0] + tail);
  }

  lemma SplitJoinStep(line: string, rest: seq<string>)
    requires |line| > 0 && |rest| > 0
    requires Join(rest) == line[1..]
    ensures Join([[line[0]] + rest[0]] + rest[1..]) == line
  {
    JoinPrepend(line[0], rest);
    assert line == [line[0]] + line[1..];
  }

  /** A line without a comma is a row of one field, the whole line. */
  lemma SplitNoComma(line: string)
    requires Comma !in line
    ensures Split(line) == [line]
  {
    CommaCountZero(line);
    var fields := Split(line);
    assert |fields| == 1;
    assert fields[1..] == [];
    assert Join(fields) == fields[0] + Separated([]);
    assert fields[0] + Separated([]) == fields[0];
    assert fields == [fields[0]];
  }

  /** Splitting at a comma that ends a comma-free prefix. */
  lemma {:induction false} SplitAfterField(f: string, rest: string)
    requires Comma !in f
    ensures Split(f + [Comma] + rest) == [f] + Split(rest)
    decreases |f|
  {
    var line := f + [Comma] + rest;
    if |f| == 0 {
      assert line[1..] == rest;
    } else {
      assert line[1..] == f[1..] + [Comma] + rest;
      SplitAfterField(f[1..], rest);
      assert [line[0]] + f[1..] == f;
    }
  }

  /** Round trip: comma-free fields, joined and split again, come back
      exactly, provided there is at least one. */
  lemma {:induction false} SplitJoin(fields: seq<string>)
    requires |fields| > 0
    requires CommaFree(fields)
    ensures Split(Join(fields)) == fields
    decreases |fields|
  {
    if |fields| == 1 {
      assert fields[1..] == [];
      SplitNoComma(fields[0]);
    } else {
      JoinCons(fields[0], fields[1..]);
      assert fields == [fields[0]] + fields[1..];
      SplitAfterField(fields[0], Join(fields[1..]));
      SplitJoin(fields[1..]);
      assert fields == [fields[0]] + fields[1..];
    }
  }

  /** With no fields the round trip fails: the empty line splits into one
      empty field. */
  lemma SplitJoinEmpty()
    ensures Join([]) == [] && Split(Join([])) == [[]]
  {
  }

  /** `CsvFileRead`: one row per line read, in line order. */
  function ReadRows(lines: seq<string>): (rows: seq<seq<string>>)
    ensures |rows| == |lines|
    ensures forall i :: 0 <= i < |lines| ==> Join(rows[i]) == lines[i] && CommaFree(rows[i])
    ensures forall i :: 0 <= i < |lines| ==> |rows[i]| == CommaCount(lines[i]) + 1
  {
    seq(|lines|, i requires 0 <= i < |lines| => Split(lines[i]))
  }

  /** The lines the row-list `FileWrite` forwards: each row joined. */
  function JoinRows(rows: seq<seq<string>>): (lines: seq<string>)
    ensures |lines| == |rows|
    ensures forall i :: 0 <= i < |rows| ==> lines[i] == Join(rows[i])
  {
    seq(|rows|, i requires 0 <= i < |rows| => Join(rows[i]))
  }

  /** Lines read and written back are unchanged. */
  lemma JoinReadRows(lines: seq<string>)
    ensures JoinRows(ReadRows(lines)) == lines
  {
  }

  /** Rows written and read back are unchanged when every row has a field
      and no field holds a comma. */
  lemma ReadJoinRows(rows: seq<seq<string>>)
    requires forall i :: 0 <= i < |rows| ==> |rows[i]| > 0 && CommaFree(rows[i])
    ensures ReadRows(JoinRows(rows)) == rows
  {
    forall i | 0 <= i < |rows|
      ensures Split(Join(rows[i])) == rows[i]
    {
      SplitJoin(rows[i]);
    }
  }

  /** What a `FileWrite` overload did: its return code, and the lines it
      passed to the underlying writer (`None` when that was not called). */
  datatype WriteOutcome = WriteOutcome(code: int, forwarded: Option<seq<string>>)

  /** Return code of a list overload given `null`. */
  const NullListCode: int := -1

  /** The `params` overload: one line, the fields joined. */
  function WriteFields(fields: seq<string>, write: seq<string> -> int): (w: WriteOutcome)
    ensures w.forwarded == Some([Join(fields)])
    ensures w.code == write(w.forwarded.value)
  {
    WriteOutcome(write([Join(fields)]), Some([Join(fields)]))
  }

  /** The single line the `params` overload writes reads back as its fields,
      when there is one at least and none holds a comma. */
  lemma WriteFieldsReadBack(fields: seq<string>, write: seq<string> -> int)
    requires |fields| > 0 && CommaFree(fields)
    ensures ReadRows(WriteFields(fields, write).forwarded.value) == [fields]
  {
    SplitJoin(fields);
  }

  /** The line-list overload: `null` gives -1 without writing; otherwise the
      lines go to the writer unchanged. */
  function WriteLines(text: Option<seq<string>>, write: seq<string> -> int): (w: WriteOutcome)
    ensures text.None? ==> w == WriteOutcome(NullListCode, None)
    ensures text.Some? ==> w.forwarded == text && w.code == write(text.value)
  {
    match text
    case None => WriteOutcome(NullListCode, None)
    case Some(lines) => WriteOutcome(write(lines), Some(lines))
  }

  /** The row-list overload: `null` gives -1 without writing; otherwise each
      row is joined, in row order, and the lines go to the line-list overload. */
  function WriteRows(text: Option<seq<seq<string>>>, write: seq<string> -> int): (w: WriteOutcome)
    ensures text.None? ==> w == WriteOutcome(NullListCode, None)
    ensures text.Some? ==>
      && w.forwarded.Some?
      && |w.forwarded.value| == |text.value|
      && (forall i :: 0 <= i < |text.value| ==> w.forwarded.value[i] == Join(text.value[i]))
      && w.code == write(w.forwarded.value)
  {
    match text
    case None => WriteOutcome(NullListCode, None)
    case Some(rows) => WriteLines(Some(JoinRows(rows)), write)
  }

  /** What the row-list overload hands to the writer reads back as the rows
      it was given, when every row has a field and no field holds a comma. */
  lemma WriteRowsReadBack(rows: seq<seq<string>>, write: seq<string> -> int)
    requires forall i :: 0 <= i < |rows| ==> |rows[i]| > 0 && CommaFree(rows[i])
    ensures ReadRows(WriteRows(Some(rows), write).forwarded.value) == rows
  {
    ReadJoinRows(rows);
  }
}

=== FILE: decimal.dfy ===
/** Decimal text of a port number, as `int.ToString()` writes it for values
    that are not negative. */
module Decimal {

  predicate IsDigit(c: char) {
    '0' <= c <= '9'
  }

  function DigitChar(d: nat): (c: char)
    requires d < 10
    ensures IsDigit(c)
  {
    (('0' as int) + d) as char
  }

  function DigitValue(c: char): (d: nat)
    requires IsDigit(c)
    ensures d < 10
  {
    (c as int) - ('0' as int)
  }

  /** Shortest decimal numeral of `n`, most significant digit first: no
      leading zero except in the numeral of zero itself. */
  function NatToString(n: nat): (s: string)
    ensures |s| > 0
    ensures forall i :: 0 <= i < |s| ==> IsDigit(s[i])
    ensures s[0] == '0' <==> n == 0
    ensures n < 10 <==> |s| == 1
    decreases n
  {
    if n < 10 then [DigitChar(n)] else NatToString(n / 10) + [DigitChar(n % 10)]
  }

  /** The value a decimal numeral denotes. */
  function Value(s: string): nat
    requires forall i :: 0 <= i < |s| ==> IsDigit(s[i])
  {
    if |s| == 0 then 0 else Value(s[..|s| - 1]) * 10 + DigitValue(s[|s| - 1])
  }

  /** Reading the numeral back gives the number. */
  lemma {:induction false} ValueOfNatToString(n: nat)
    ensures Value(NatToString(n)) == n
    decreases n
  {
    var s := NatToString(n);
    if n >= 10 {
      assert s[..|s| - 1] == NatToString(n / 10);
      ValueOfNatToString(n / 10);
    }
  }

  /** Distinct ports have distinct numerals. */
  lemma NatToStringInjective(a: nat, b: nat)
    requires NatToString(a) == NatToString(b)
    ensures a == b
  {
    ValueOfNatToString(a);
    ValueOfNatToString(b);
  }
}

=== FILE: framing.dfy ===
/** The newline line protocol of the TCP server, without sockets.

    Outbound, `Send` appends one delimiter to the message. Inbound, `ReadAsync`
    reads chunks of at most 256 units into an accumulator until a read leaves no
    more data available AND ends in the delimiter; a read of zero units means the
    peer closed the connection. The accumulated text then loses its whole run of
    trailing delimiters.

    Text is modelled as characters, one unit each. This matches the byte-level
    loop for encodings in which the byte 0x0A occurs only as the encoding of
    the delimiter, and the delimiter is that single byte: UTF-8, the default,
    and ASCII are such encodings, UTF-16 is not. */
module LineFraming {
  import opened Wrappers

  const Delimiter: char := '\n'

  /** Size of the receive buffer: one read returns at most this many units. */
  const BufferSize: nat := 256

  predicate EndsWithDelimiter(s: string) {
    |s| > 0 && s[|s| - 1] == Delimiter
  }

  /** The bytes `Send` hands to the stream for message `msg`. */
  function Framed(msg: string): (sent: string)
    ensures |sent| == |msg| + 1 && sent[..|msg|] == msg
    ensures EndsWithDelimiter(sent)
  {
    msg + [Delimiter]
  }

  /** `TrimEnd('\n')`: drop every trailing delimiter, keep everything before. */
  function TrimNewlines(s: string): (r: string)
    ensures |r| <= |s| && r == s[..|r|]
    ensures !EndsWithDelimiter(r)
    ensures forall i :: |r| <= i < |s| ==> s[i] == Delimiter
    decreases |s|
  {
    if EndsWithDelimiter(s) then TrimNewlines(s[..|s| - 1]) else s
  }

  /** Trimming what `Send` produced gives the message back, provided the
      message itself does not end in a delimiter. */
  lemma TrimFramed(msg: string)
    requires !EndsWithDelimiter(msg)
    ensures TrimNewlines(Framed(msg)) == msg
  {
    assert Framed(msg)[..|Framed(msg)| - 1] == msg;
  }

  /** A message that does end in delimiters loses all of them: the round trip
      of `Send` and `ReadAsync` is lossy exactly there. */
  lemma TrimFramedLossy(msg: string)
    requires EndsWithDelimiter(msg)
    ensures TrimNewlines(Framed(msg)) == TrimNewlines(msg)
    ensures |TrimNewlines(Framed(msg))| < |msg|
  {
    assert Framed(msg)[..|Framed(msg)| - 1] == msg;
  }

  lemma {:induction false} TrimIdempotent(s: string)
    ensures TrimNewlines(TrimNewlines(s)) == TrimNewlines(s)
  {
  }

  /** One call of the stream's read: the units it returned (none means the peer
      closed the connection) and whether more data was immediately available
      afterwards. */
  datatype ChunkRead = ChunkRead(data: string, available: bool)

  /** The loop leaves after this read: nothing more is waiting and the last
      unit received is the delimiter. */
  predicate Stops(c: ChunkRead) {
    !c.available && EndsWithDelimiter(c.data)
  }

  /** The loop appends this read and goes round again. */
  predicate Continues(c: ChunkRead) {
    |c.data| > 0 && !Stops(c)
  }

  predicate AllContinue(chunks: seq<ChunkRead>) {
    forall i :: 0 <= i < |chunks| ==> Continues(chunks[i])
  }

  /** What the stream can deliver: every read fits the receive buffer. */
  predicate WellSized(chunks: seq<ChunkRead>) {
    forall i :: 0 <= i < |chunks| ==> |chunks[i].data| <= BufferSize
  }

  /** The accumulator after the given chunks, in read order. */
  function Concat(chunks: seq<ChunkRead>): string {
    if |chunks| == 0 then [] else Concat(chunks[..|chunks| - 1]) + chunks[|chunks| - 1].data
  }

  /** The result of one `ReadAsync`: a line, the disconnect sentinel (the `null`
      that `ReadAsync` returns), or, when the chunks given run out first, still waiting with
      the partial data accumulated so far. */
  datatype Frame = Disconnected | Line(text: string) | Pending(partial: string)

  /** A frame together with the number of chunks it consumed. */
  datatype Received = Received(frame: Frame, used: nat)

  function ReceiveFrom(chunks: seq<ChunkRead>, i: nat, acc: string): (r: Received)
    requires i <= |chunks|
    requires AllContinue(chunks[..i])
    requires acc == Concat(chunks[..i])
    ensures i <= r.used <= |chunks|
    ensures r.frame.Pending? <==> AllContinue(chunks)
    ensures r.frame.Pending? ==> r.used == |chunks| && r.frame.partial == Concat(chunks)
    ensures r.frame.Disconnected? ==>
      && 0 < r.used
      && AllContinue(chunks[..r.used - 1])
      && |chunks[r.used - 1].data| == 0
    ensures r.frame.Line? ==>
      && 0 < r.used
      && AllContinue(chunks[..r.used - 1])
      && Stops(chunks[r.used - 1])
      && r.frame.text == TrimNewlines(Concat(chunks[..r.used]))
    decreases |chunks| - i
  {
    if i == |chunks| then
      assert chunks[..i] == chunks;
      Received(Pending(acc), i)
    else
      assert chunks[..i + 1][..i] == chunks[..i];
      if |chunks[i].data| == 0 then
        Received(Disconnected, i + 1)
      else if Stops(chunks[i]) then
        Received(Line(TrimNewlines(acc + chunks[i].data)), i + 1)
      else
        var upto := chunks[..i + 1];
        assert AllContinue(upto) by {
          forall j | 0 <= j < |upto|
            ensures Continues(upto[j])
          {
            if j < i { assert upto[j] == chunks[..i][j]; }
          }
        }
        ReceiveFrom(chunks, i + 1, acc + chunks[i].data)
  }

  /** `ReadAsync` over the sequence of chunks the stream delivers. */
  function Receive(chunks: seq<ChunkRead>): (r: Received)
    ensures r.used <= |chunks|
    ensures r.frame.Pending? <==> AllContinue(chunks)
    ensures r.frame.Pending? ==> r.used == |chunks| && r.frame.partial == Concat(chunks)
    ensures r.frame.Disconnected? ==>
      && 0 < r.used
      && AllContinue(chunks[..r.used - 1])
      && |chunks[r.used - 1].data| == 0
    ensures r.frame.Line? ==>
      && 0 < r.used
      && AllContinue(chunks[..r.used - 1])
      && Stops(chunks[r.used - 1])
      && r.frame.text == TrimNewlines(Concat(chunks[..r.used]))
  {
    assert chunks[..0] == [];
    ReceiveFrom(chunks, 0, [])
  }

  /** Reading stops at the first read that stops the loop, and nowhere else. */
  lemma ReceiveStopsAt(chunks: seq<ChunkRead>, k: nat)
    requires k < |chunks|
    requires AllContinue(chunks[..k])
    requires Stops(chunks[k])
    ensures Receive(chunks) == Received(Line(TrimNewlines(Concat(chunks[..k + 1]))), k + 1)
  {
    var r := Receive(chunks);
    if !r.frame.Pending? {
      var j := r.used - 1;
      if j < k {
        assert false;
      } else if j > k {
        assert false;
      }
    }
  }

  /** A zero-length read ends the read with the disconnect sentinel, dropping
      whatever had been accumulated before it. */
  lemma ReceiveDisconnectsAt(chunks: seq<ChunkRead>, k: nat)
    requires k < |chunks|
    requires AllContinue(chunks[..k])
    requires |chunks[k].data| == 0
    ensures Receive(chunks) == Received(Disconnected, k + 1)
  {
    var r := Receive(chunks);
    if !r.frame.Pending? {
      var j := r.used - 1;
      if j < k {
        assert false;
      } else if j > k {
        assert false;
      }
    }
  }

  /** Reads beyond the one that ends a frame are left for the next call. */
  lemma ReceiveIgnoresLaterReads(a: seq<ChunkRead>, b: seq<ChunkRead>)
    requires !Receive(a).frame.Pending?
    ensures Receive(a + b) == Receive(a)
  {
    var r := Receive(a);
    var k := r.used - 1;
    assert (a + b)[..k] == a[..k];
    assert (a + b)[..k + 1] == a[..k + 1];
    assert (a + b)[k] == a[k];
    if r.frame.Line? {
      ReceiveStopsAt(a + b, k);
    } else {
      ReceiveDisconnectsAt(a + b, k);
    }
  }

  lemma {:induction false} ConcatLength(chunks: seq<ChunkRead>, k: nat)
    requires k <= |chunks|
    ensures |Concat(chunks[..k])| <= |Concat(chunks)|
    ensures Concat(chunks[..k]) == Concat(chunks)[..|Concat(chunks[..k])|]
    decreases |chunks|
  {
    if k < |chunks| {
      var init := chunks[..|chunks| - 1];
      assert init[..k] == chunks[..k];
      ConcatLength(init, k);
    } else {
      assert chunks[..k] == chunks;
    }
  }

  /** `chunks` is one way the stream can deliver `s` in a single burst: in order,
      no read empty or larger than the buffer, nothing left waiting after the
      last one. */
  predicate IsChunking(chunks: seq<ChunkRead>, s: string) {
    && |chunks| > 0
    && Concat(chunks) == s
    && WellSized(chunks)
    && (forall i :: 0 <= i < |chunks| ==> |chunks[i].data| > 0)
    && !chunks[|chunks| - 1].available
  }

  /** Round trip of the protocol: a message without delimiters, framed by
      `Send` and received in any chunking, comes back exactly. */
  lemma ReceiveFramed(msg: string, chunks: seq<ChunkRead>)
    requires Delimiter !in msg
    requires IsChunking(chunks, Framed(msg))
    ensures Receive(chunks) == Received(Line(msg), |chunks|)
  {
    var n := |chunks| - 1;
    var s := Framed(msg);
    assert chunks[..n + 1] == chunks;
    assert Concat(chunks) == Concat(chunks[..n]) + chunks[n].data;
    assert Stops(chunks[n]) by {
      assert chunks[n].data[|chunks[n].data| - 1] == s[|s| - 1];
    }
    forall j | 0 <= j < n
      ensures Continues(chunks[..n][j])
    {
      assert chunks[..n][j] == chunks[j];
      var p := Concat(chunks[..j + 1]);
      ConcatLength(chunks, j + 1);
      ConcatLength(chunks, n);
      assert chunks[..n][..j + 1] == chunks[..j + 1];
      ConcatLength(chunks[..n], j + 1);
      assert chunks[..j + 1][..j] == chunks[..j];
      assert p == Concat(chunks[..j]) + chunks[j].data;
      assert |p| <= |Concat(chunks[..n])| < |s|;
      assert chunks[j].data[|chunks[j].data| - 1] == p[|p| - 1] == s[|p| - 1];
      assert s[|p| - 1] == msg[|p| - 1];
    }
    ReceiveStopsAt(chunks, n);
    TrimFramed(msg);
  }

  /** `ReadLoopAsync`: call `ReadAsync` again and again, enqueueing each result
      (a disconnect enqueues the `null` sentinel, `None` here, and the loop goes
      on) until the chunks given run out in the middle of a frame. */
  function ReadLoop(chunks: seq<ChunkRead>): (items: seq<Option<string>>)
    ensures |items| <= |chunks|
    decreases |chunks|
  {
    var r := Receive(chunks);
    match r.frame
    case Pending(_) => []
    case Disconnected => [None] + ReadLoop(chunks[r.used..])
    case Line(t) => [Some(t)] + ReadLoop(chunks[r.used..])
  }

  /** The chunks that a client produces by sending each message of a
      conversation as its own burst. */
  function Flatten(bursts: seq<seq<ChunkRead>>): seq<ChunkRead> {
    if |bursts| == 0 then [] else bursts[0] + Flatten(bursts[1..])
  }

  predicate IsConversation(msgs: seq<string>, bursts: seq<seq<ChunkRead>>) {
    && |msgs| == |bursts|
    && forall i :: 0 <= i < |msgs| ==> Delimiter !in msgs[i] && IsChunking(bursts[i], Framed(msgs[i]))
  }

  function AsItems(msgs: seq<string>): (items: seq<Option<string>>)
    ensures |items| == |msgs|
    ensures forall i :: 0 <= i < |msgs| ==> items[i] == Some(msgs[i])
  {
    if |msgs| == 0 then [] else [Some(msgs[0])] + AsItems(msgs[1..])
  }

  /** A client's messages reach the queue exactly and in the order sent. */
  lemma {:induction false} ReadLoopConversation(msgs: seq<string>, bursts: seq<seq<ChunkRead>>)
    requires IsConversation(msgs, bursts)
    ensures ReadLoop(Flatten(bursts)) == AsItems(msgs)
    decreases |msgs|
  {
    if |msgs| > 0 {
      var first := bursts[0];
      var rest := Flatten(bursts[1..]);
      ReceiveFramed(msgs[0], first);
      ReceiveIgnoresLaterReads(first, rest);
      assert (first + rest)[|first|..] == rest;
      assert IsConversation(msgs[1..], bursts[1..]) by {
        forall i | 0 <= i < |msgs[1..]|
          ensures Delimiter !in msgs[1..][i] && IsChunking(bursts[1..][i], Framed(msgs[1..][i]))
        {
          assert msgs[1..][i] == msgs[i + 1];
          assert bursts[1..][i] == bursts[i + 1];
        }
      }
      ReadLoopConversation(msgs[1..], bursts[1..]);
    }
  }

  /** `n` reads of a stream whose peer has closed: each returns nothing. */
  function Closed(n: nat): seq<ChunkRead> {
    seq(n, _ => ChunkRead([], false))
  }

  /** After the peer has closed, every further read returns nothing, and the
      loop enqueues one disconnect sentinel per read. */
  lemma {:induction false} ReadLoopAfterClose(n: nat)
    ensures ReadLoop(Closed(n)) == seq(n, _ => None)
  {
    if n > 0 {
      var chunks := Closed(n);
      assert chunks[..0] == [];
      ReceiveDisconnectsAt(chunks, 0);
      assert chunks[1..] == Closed(n - 1);
      ReadLoopAfterClose(n - 1);
    }
  }

  /** The chunks split into whole frames, lines or disconnects, with nothing
      left over: each `ReadAsync` ends exactly where the next one begins, and
      the last one ends with the last chunk. */
  predicate EndsOnFrame(chunks: seq<ChunkRead>)
    decreases |chunks|
  {
    |chunks| == 0 || (var r := Receive(chunks); !r.frame.Pending? && EndsOnFrame(chunks[r.used..]))
  }

  /** What the reader loop enqueues for a frame that ended. */
  function Item(f: Frame): Option<string> {
    if f.Line? then Some(f.text) else None
  }

  lemma ReadLoopStep(chunks: seq<ChunkRead>)
    requires !Receive(chunks).frame.Pending?
    ensures ReadLoop(chunks) == [Item(Receive(chunks).frame)] + ReadLoop(chunks[Receive(chunks).used..])
  {
  }

  /** The reader loop handles the chunks frame by frame: when `a` ends on a
      frame boundary, what follows it is enqueued behind what `a` gave, as if
      the loop had started afresh there. */
  lemma {:induction false} ReadLoopAppend(a: seq<ChunkRead>, b: seq<ChunkRead>)
    requires EndsOnFrame(a)
    ensures ReadLoop(a + b) == ReadLoop(a) + ReadLoop(b)
    decreases |a|
  {
    if |a| == 0 {
      assert a + b == b;
    } else {
      var r := Receive(a);
      var rest := a[r.used..];
      var x := Item(r.frame);
      assert ReadLoop(a + b) == [x] + ReadLoop(rest + b) by {
        ReceiveIgnoresLaterReads(a, b);
        assert (a + b)[r.used..] == rest + b;
        ReadLoopStep(a + b);
      }
      assert ReadLoop(a) == [x] + ReadLoop(rest) by {
        ReadLoopStep(a);
      }
      assert ReadLoop(rest + b) == ReadLoop(rest) + ReadLoop(b) by {
        ReadLoopAppend(rest, b);
      }
      ConsAppend(x, ReadLoop(rest), ReadLoop(b));
    }
  }

  lemma ConsAppend<T>(x: T, p: seq<T>, q: seq<T>)
    ensures [x] + (p + q) == [x] + p + q
  {
  }

  /** A conversation of framed bursts ends on a frame boundary. */
  lemma {:induction false} ConversationEndsOnFrame(msgs: seq<string>, bursts: seq<seq<ChunkRead>>)
    requires IsConversation(msgs, bursts)
    ensures EndsOnFrame(Flatten(bursts))
    decreases |msgs|
  {
    if |msgs| > 0 {
      var first := bursts[0];
      var rest := Flatten(bursts[1..]);
      ReceiveFramed(msgs[0], first);
      ReceiveIgnoresLaterReads(first, rest);
      assert (first + rest)[|first|..] == rest;
      assert IsConversation(msgs[1..], bursts[1..]) by {
        forall i | 0 <= i < |msgs[1..]|
          ensures Delimiter !in msgs[1..][i] && IsChunking(bursts[1..][i], Framed(msgs[1..][i]))
        {
          assert msgs[1..][i] == msgs[i + 1];
          assert bursts[1..][i] == bursts[i + 1];
        }
      }
      ConversationEndsOnFrame(msgs[1..], bursts[1..]);
    }
  }

  /** A client that sends its messages and then closes: the messages are
      enqueued in order, followed by one disconnect sentinel per later read. */
  lemma ReadLoopConversationThenClose(msgs: seq<string>, bursts: seq<seq<ChunkRead>>, n: nat)
    requires IsConversation(msgs, bursts)
    ensures ReadLoop(Flatten(bursts) + Closed(n)) == AsItems(msgs) + seq(n, _ => None)
  {
    ConversationEndsOnFrame(msgs, bursts);
    ReadLoopAppend(Flatten(bursts), Closed(n));
    ReadLoopConversation(msgs, bursts);
    ReadLoopAfterClose(n);
  }
}

=== FILE: inbound_queue.dfy ===
/** The inbound queue every reader loop feeds and the UI polls. An entry is
    a received line, or `None` for the disconnect sentinel (`null`) a reader
    enqueues when its peer closes. */
module InboundQueue {
  import opened Wrappers

  type Queue = seq<Option<string>>

  datatype Polled = Polled(message: Option<string>, rest: Queue)

  /** `Read`: an empty queue gives `null` and stays as it is; otherwise the
      oldest entry is taken. A taken sentinel also reads as `null`. */
  function Poll(q: Queue): (p: Polled)
    ensures |q| == 0 ==> p == Polled(None, q)
    ensures |q| > 0 ==> [p.message] + p.rest == q
  {
    if |q| == 0 then Polled(None, q) else Polled(q[0], q[1..])
  }

  /** A poll reports "nothing" exactly when the queue is empty or its oldest
      entry is the disconnect sentinel: the two cannot be told apart. */
  lemma PollNothing(q: Queue)
    ensures Poll(q).message.None? <==> |q| == 0 || q[0].None?
  {
  }

  /** Entries added behind a non-empty queue do not overtake its head. */
  lemma PollAfterEnqueue(q: Queue, items: Queue)
    requires |q| > 0
    ensures Poll(q + items) == Polled(q[0], q[1..] + items)
  {
    assert (q + items)[1..] == q[1..] + items;
  }

  /** `n` polls in a row: what each returned, and the queue left behind. */
  datatype Drained = Drained(messages: seq<Option<string>>, rest: Queue)

  function Drain(q: Queue, n: nat): (d: Drained)
    ensures |d.messages| == n
    decreases n
  {
    if n == 0 then Drained([], q)
    else
      var p := Poll(q);
      var d := Drain(p.rest, n - 1);
      Drained([p.message] + d.messages, d.rest)
  }

  /** First in, first out: polling `n` times returns the `n` oldest entries
      in arrival order and leaves the others queued. */
  lemma {:induction false} DrainFifo(q: Queue, n: nat)
    requires n <= |q|
    ensures Drain(q, n) == Drained(q[..n], q[n..])
    decreases n
  {
    if n > 0 {
      DrainFifo(q[1..], n - 1);
      assert q[..n] == [q[0]] + q[1..][..n - 1];
      assert q[n..] == q[1..][n - 1..];
    }
  }

  function Nothing(n: nat): Queue {
    seq(n, _ => None)
  }

  /** Polling an empty queue any number of times returns nothing and leaves
      it empty. */
  lemma {:induction false} DrainEmpty(n: nat)
    ensures Drain([], n) == Drained(Nothing(n), [])
    decreases n
  {
    if n > 0 {
      DrainEmpty(n - 1);
      assert Nothing(n) == [None] + Nothing(n - 1);
    }
  }
}

=== FILE: registry.dfy ===
/** The server's client registry: a dictionary from an endpoint key `ip:port`
    to the accepted connection, enumerated in insertion order. */
module ClientRegistry {
  import opened Wrappers
  import Decimal

  const Separator: char := ':'

  /** An IP address in its textual form together with a port. */
  datatype Endpoint = Endpoint(address: string, port: nat)

  /** An accepted socket, identified by `id`, with both of its ends. */
  datatype Connection = Connection(id: nat, local: Endpoint, remote: Endpoint)

  datatype Entry = Entry(key: string, conn: Connection)

  type Registry = seq<Entry>

  datatype RegistryError = DuplicateKey(key: string)

  /** The dictionary key of an endpoint: its address, a colon, its port. */
  function EndpointKey(e: Endpoint): (key: string)
    ensures |e.address| < |key| && key[..|e.address|] == e.address && key[|e.address|] == Separator
    ensures key[|e.address| + 1..] == Decimal.NatToString(e.port)
  {
    e.address + [Separator] + Decimal.NatToString(e.port)
  }

  /** What follows the last colon of `s` (all of `s` when it has none). */
  function AfterLastSeparator(s: string): string {
    if |s| == 0 || s[|s| - 1] == Separator then []
    else AfterLastSeparator(s[..|s| - 1]) + [s[|s| - 1]]
  }

  lemma {:induction false} AfterLastSeparatorOf(a: string, p: string)
    requires Separator !in p
    ensures AfterLastSeparator(a + [Separator] + p) == p
    decreases |p|
  {
    var s := a + [Separator] + p;
    if |p| == 0 {
      assert s[|s| - 1] == Separator;
    } else {
      var p' := p[..|p| - 1];
      assert s[..|s| - 1] == a + [Separator] + p';
      AfterLastSeparatorOf(a, p');
    }
  }

  /** Keys built from different endpoints differ, even for IPv6 addresses
      whose text itself contains colons: the port numeral never does. */
  lemma EndpointKeyInjective(x: Endpoint, y: Endpoint)
    requires EndpointKey(x) == EndpointKey(y)
    ensures x == y
  {
    var px := Decimal.NatToString(x.port);
    var py := Decimal.NatToString(y.port);
    AfterLastSeparatorOf(x.address, px);
    AfterLastSeparatorOf(y.address, py);
    Decimal.NatToStringInjective(x.port, y.port);
    var s := EndpointKey(x);
    assert x.address == s[..|x.address|];
    assert y.address == s[..|y.address|];
  }

  predicate HasKey(reg: Registry, key: string) {
    exists i :: 0 <= i < |reg| && reg[i].key == key
  }

  predicate UniqueKeys(reg: Registry) {
    forall i, j :: 0 <= i < j < |reg| ==> reg[i].key != reg[j].key
  }

  /** The registry seen as the dictionary it is. */
  function AsMap(reg: Registry): (m: map<string, Connection>)
    ensures forall k :: k in m <==> HasKey(reg, k)
  {
    if |reg| == 0 then map[]
    else
      var init := reg[..|reg| - 1];
      var last := reg[|reg| - 1];
      assert forall i :: 0 <= i < |init| ==> init[i] == reg[i];
      AsMap(init)[last.key := last.conn]
  }

  /** With unique keys, every entry can be looked up under its own key. */
  lemma {:induction false} AsMapLookup(reg: Registry, i: nat)
    requires UniqueKeys(reg)
    requires i < |reg|
    ensures AsMap(reg)[reg[i].key] == reg[i].conn
    decreases |reg|
  {
    if i < |reg| - 1 {
      var init := reg[..|reg| - 1];
      assert init[i] == reg[i];
      AsMapLookup(init, i);
    }
  }

  /** `Dictionary.Add`: a key already present is an error and the registry
      is not touched; otherwise the new entry is enumerated last. */
  function Add(reg: Registry, key: string, conn: Connection): (r: Result<Registry, RegistryError>)
    ensures r.Err? <==> key in AsMap(reg)
    ensures r.Err? ==> r.error == DuplicateKey(key)
    ensures r.Ok? ==> AsMap(r.value) == AsMap(reg)[key := conn]
    ensures r.Ok? ==> |r.value| == |reg| + 1 && r.value[..|reg|] == reg
    ensures r.Ok? && UniqueKeys(reg) ==> UniqueKeys(r.value)
  {
    if HasKey(reg, key) then Err(DuplicateKey(key))
    else
      var reg' := reg + [Entry(key, conn)];
      assert reg'[..|reg|] == reg;
      Ok(reg')
  }

  /** The connections of the registry in enumeration order. */
  function Connections(reg: Registry): (cs: seq<Connection>)
    ensures |cs| == |reg|
    ensures forall i :: 0 <= i < |reg| ==> cs[i] == reg[i].conn
  {
    if |reg| == 0 then [] else Connections(reg[..|reg| - 1]) + [reg[|reg| - 1].conn]
  }
}

=== FILE: tcp_server.dfy ===
/** The TCP server as sequential state: its listener, the client registry,
    the inbound queue and the disposal flags, with one transition per
    operation. Sockets, tasks and timeouts are outside the model; each
    operation receives what the network did as a parameter. */
module TcpServer {
  import opened Wrappers
  import opened LineFraming
  import opened ClientRegistry
  import opened InboundQueue
  import opened BindAddress

  datatype Server = Server(
    listener: Listener,
    registry: Registry,
    queue: Queue,
    disposed: bool,              // `disposedValue`
    loggerOpen: bool,
    closed: set<Connection>)     // clients closed and disposed so far

  /** The constructor: build and start the listener, with nothing accepted,
      nothing received and nothing disposed. */
  function Create(host: Option<string>, port: int, parse: Parser, resolve: Resolver, portFree: bool): (r: Result<Server, ListenError>)
    ensures r.Ok? <==> SelectAddress(host, parse, resolve).Ok? && ValidPort(port) && portFree
    ensures SelectAddress(host, parse, resolve).Ok? && !ValidPort(port) ==> r == Err(PortOutOfRange(port))
    ensures r.Ok? ==>
      && r.value.listener == Listener(SelectAddress(host, parse, resolve).value, port, true)
      && r.value.registry == [] && r.value.queue == []
      && !r.value.disposed && r.value.loggerOpen && r.value.closed == {}
  {
    match Listen(None, host, port, parse, resolve, portFree)
    case Err(e) => Err(e)
    case Ok(l) => Ok(Server(l, [], [], false, true, {}))
  }

  /** Register an accepted connection under `key`; a key already present
      makes `Dictionary.Add` throw, which ends the accept loop. */
  function Register(s: Server, key: string, conn: Connection): (r: Result<Server, RegistryError>)
    ensures r.Err? <==> key in AsMap(s.registry)
    ensures r.Ok? ==> r.value == s.(registry := r.value.registry)
    ensures r.Ok? ==> AsMap(r.value.registry) == AsMap(s.registry)[key := conn]
    ensures r.Ok? ==> |r.value.registry| == |s.registry| + 1 && r.value.registry[..|s.registry|] == s.registry
  {
    match Add(s.registry, key, conn)
    case Err(e) => Err(e)
    case Ok(reg) => Ok(s.(registry := reg))
  }

  /** One round of `Accept` as written: the key is built from the LOCAL end
      of the accepted socket, which is the listener's own address and port. */
  function AcceptAsWritten(s: Server, conn: Connection): (r: Result<Server, RegistryError>)
    ensures r.Err? <==> EndpointKey(conn.local) in AsMap(s.registry)
    ensures r.Ok? ==> r.value == s.(registry := r.value.registry)
    ensures r.Ok? ==> AsMap(r.value.registry) == AsMap(s.registry)[EndpointKey(conn.local) := conn]
  {
    Register(s, EndpointKey(conn.local), conn)
  }

  /** Every client that reaches the listener through the same local address
      gets the same key, so the second one is refused even though it is a
      different connection from a different peer. */
  lemma AcceptAsWrittenCollides(s: Server, c1: Connection, c2: Connection)
    requires AcceptAsWritten(s, c1).Ok?
    requires c1.local == c2.local
    ensures AcceptAsWritten(AcceptAsWritten(s, c1).value, c2) == Err(DuplicateKey(EndpointKey(c2.local)))
  {
  }

  /** A concrete instance: two clients connecting to 127.0.0.1:2001 from two
      different ports. The first is registered, the second is refused. */
  lemma AcceptAsWrittenTwoClients(s: Server)
    requires s.registry == []
    ensures
      var server := Endpoint("127.0.0.1", 2001);
      var c1 := Connection(1, server, Endpoint("127.0.0.1", 50001));
      var c2 := Connection(2, server, Endpoint("127.0.0.1", 50002));
      && AcceptAsWritten(s, c1).Ok?
      && AcceptAsWritten(AcceptAsWritten(s, c1).value, c2).Err?
  {
    var server := Endpoint("127.0.0.1", 2001);
    var c1 := Connection(1, server, Endpoint("127.0.0.1", 50001));
    var c2 := Connection(2, server, Endpoint("127.0.0.1", 50002));
    AcceptAsWrittenCollides(s, c1, c2);
  }

  /** One round of `Accept`, keyed by the REMOTE end of the socket, which
      tells connections apart. */
  function Accept(s: Server, conn: Connection): (r: Result<Server, RegistryError>)
    ensures r.Err? <==> EndpointKey(conn.remote) in AsMap(s.registry)
    ensures r.Ok? ==> r.value == s.(registry := r.value.registry)
    ensures r.Ok? ==> AsMap(r.value.registry) == AsMap(s.registry)[EndpointKey(conn.remote) := conn]
  {
    Register(s, EndpointKey(conn.remote), conn)
  }

  function RemoteKeys(conns: seq<Connection>): set<string> {
    set i | 0 <= i < |conns| :: EndpointKey(conns[i].remote)
  }

  predicate DistinctPeers(conns: seq<Connection>) {
    forall i, j :: 0 <= i < j < |conns| ==> conns[i].remote != conns[j].remote
  }

  /** The accept loop over the connections the listener hands out in order;
      the first refused registration ends it. */
  function AcceptAll(s: Server, conns: seq<Connection>): (r: Result<Server, RegistryError>)
    ensures r.Ok? ==> r.value == s.(registry := r.value.registry)
    decreases |conns|
  {
    if |conns| == 0 then Ok(s)
    else match Accept(s, conns[0])
      case Err(e) => Err(e)
      case Ok(s') => AcceptAll(s', conns[1..])
  }

  lemma RemoteKeysCons(conns: seq<Connection>)
    requires |conns| > 0
    ensures RemoteKeys(conns) == {EndpointKey(conns[0].remote)} + RemoteKeys(conns[1..])
  {
    var rest := conns[1..];
    forall k | k in RemoteKeys(conns)
      ensures k in {EndpointKey(conns[0].remote)} + RemoteKeys(rest)
    {
      var i :| 0 <= i < |conns| && k == EndpointKey(conns[i].remote);
      if i > 0 { assert k == EndpointKey(rest[i - 1].remote); }
    }
    forall k | k in RemoteKeys(rest)
      ensures k in RemoteKeys(conns)
    {
      var i :| 0 <= i < |rest| && k == EndpointKey(rest[i].remote);
      assert k == EndpointKey(conns[i + 1].remote);
    }
  }

  /** The peers after the first are distinct, and none shares the first
      one's key. */
  lemma DistinctPeersTail(conns: seq<Connection>)
    requires |conns| > 0 && DistinctPeers(conns)
    ensures DistinctPeers(conns[1..])
    ensures EndpointKey(conns[0].remote) !in RemoteKeys(conns[1..])
  {
    var rest := conns[1..];
    forall i, j | 0 <= i < j < |rest|
      ensures rest[i].remote != rest[j].remote
    {
      assert rest[i] == conns[i + 1] && rest[j] == conns[j + 1];
    }
    var key := EndpointKey(conns[0].remote);
    if key in RemoteKeys(rest) {
      var i :| 0 <= i < |rest| && key == EndpointKey(rest[i].remote);
      assert rest[i] == conns[i + 1];
      EndpointKeyInjective(rest[i].remote, conns[0].remote);
    }
  }

  /** Connections from distinct peers are all registered, one entry each,
      and the registry keeps its keys unique. */
  lemma {:induction false} AcceptAllDistinctPeers(s: Server, conns: seq<Connection>)
    requires UniqueKeys(s.registry)
    requires DistinctPeers(conns)
    requires forall k :: k in RemoteKeys(conns) ==> k !in AsMap(s.registry)
    ensures AcceptAll(s, conns).Ok?
    ensures AsMap(AcceptAll(s, conns).value.registry).Keys == AsMap(s.registry).Keys + RemoteKeys(conns)
    ensures |AcceptAll(s, conns).value.registry| == |s.registry| + |conns|
    ensures UniqueKeys(AcceptAll(s, conns).value.registry)
    decreases |conns|
  {
    if |conns| > 0 {
      var c := conns[0];
      var key := EndpointKey(c.remote);
      var rest := conns[1..];
      RemoteKeysCons(conns);
      DistinctPeersTail(conns);
      var s' := Accept(s, c).value;
      assert AsMap(s'.registry).Keys == AsMap(s.registry).Keys + {key};
      AcceptAllDistinctPeers(s', rest);
    }
  }

  /** `ReadLoopAsync` of one connection: everything its reader loop takes
      from the reads the stream delivered is enqueued behind what is there. */
  function Deliver(s: Server, chunks: seq<ChunkRead>): (r: Server)
    ensures r == s.(queue := r.queue)
    ensures |s.queue| <= |r.queue| <= |s.queue| + |chunks|
    ensures r.queue[..|s.queue|] == s.queue
  {
    var items := ReadLoop(chunks);
    assert (s.queue + items)[..|s.queue|] == s.queue;
    s.(queue := s.queue + items)
  }

  datatype ReadResult = ReadResult(message: Option<string>, server: Server)

  /** `Read`: the non-blocking poll of the inbound queue. */
  function Read(s: Server): (r: ReadResult)
    ensures r.server == s.(queue := r.server.queue)
    ensures |s.queue| == 0 ==> r == ReadResult(None, s)
    ensures |s.queue| > 0 ==> r.message == s.queue[0] && r.server.queue == s.queue[1..]
  {
    var p := Poll(s.queue);
    ReadResult(p.message, s.(queue := p.rest))
  }

  /** End to end: a client sends a conversation through `Send`-framed bursts
      into an empty queue; polling returns each message, in the order sent,
      and then the queue is empty again. */
  lemma SendDeliverRead(s: Server, msgs: seq<string>, bursts: seq<seq<ChunkRead>>)
    requires s.queue == []
    requires IsConversation(msgs, bursts)
    ensures Drain(Deliver(s, Flatten(bursts)).queue, |msgs|) == Drained(AsItems(msgs), [])
  {
    ReadLoopConversation(msgs, bursts);
    var q := Deliver(s, Flatten(bursts)).queue;
    assert q == AsItems(msgs);
    DrainFifo(q, |msgs|);
    assert q[..|msgs|] == q;
  }

  /** The bytes written to one client by a send. */
  datatype Transmission = Transmission(to: Connection, payload: string)

  /** The writes a broadcast attempted, and the client whose `Send` threw, if
      any; the exception ends the broadcast. */
  datatype Broadcast = Broadcast(attempted: seq<Transmission>, failed: Option<Connection>)

  /** `Send` to a client goes through: `GetStream()` returns, which it does
      only for a client that is still connected and not yet closed
      (`CanClose`), and the write succeeds (`writeOk` stands for the
      network's answer). */
  predicate CanSend(c: Connection, closed: set<Connection>, connected: Connection -> bool, writeOk: Connection -> bool) {
    CanClose(c, closed, connected) && writeOk(c)
  }

  /** One `Send` per entry, in order. When `GetStream()` throws, because the
      client is closed or no longer connected, nothing is written to it;
      otherwise the write is attempted, and it may throw. */
  function SendEach(reg: Registry, closed: set<Connection>, msg: string, connected: Connection -> bool,
                    writeOk: Connection -> bool): (b: Broadcast)
    ensures |b.attempted| <= |reg|
    ensures forall i :: 0 <= i < |b.attempted| ==>
      b.attempted[i] == Transmission(reg[i].conn, Framed(msg)) && CanClose(reg[i].conn, closed, connected)
    ensures b.failed.None? <==> forall i :: 0 <= i < |reg| ==> CanSend(reg[i].conn, closed, connected, writeOk)
    ensures b.failed.None? ==> |b.attempted| == |reg|
    ensures b.failed.Some? ==> forall i :: 0 <= i < |b.attempted| - 1 ==> CanSend(reg[i].conn, closed, connected, writeOk)
    ensures b.failed.Some? ==>
      || (&& |b.attempted| < |reg|
          && b.failed.value == reg[|b.attempted|].conn
          && !CanClose(b.failed.value, closed, connected)
          && (forall i :: 0 <= i < |b.attempted| ==> CanSend(reg[i].conn, closed, connected, writeOk)))
      || (&& 0 < |b.attempted|
          && b.failed.value == reg[|b.attempted| - 1].conn
          && CanClose(b.failed.value, closed, connected)
          && !writeOk(b.failed.value))
  {
    if |reg| == 0 then Broadcast([], None)
    else
      var c := reg[0].conn;
      var t := Transmission(c, Framed(msg));
      if !CanClose(c, closed, connected) then Broadcast([], Some(c))
      else if !writeOk(c) then Broadcast([t], Some(c))
      else
        var b := SendEach(reg[1..], closed, msg, connected, writeOk);
        Broadcast([t] + b.attempted, b.failed)
  }

  /** `SendAll`: one `Send` of the message to each registered client, in
      enumeration order, up to the first one that throws. The server itself
      is not changed. */
  function SendAll(s: Server, msg: string, connected: Connection -> bool, writeOk: Connection -> bool): (b: Broadcast)
    ensures |b.attempted| <= |s.registry|
    ensures forall i :: 0 <= i < |b.attempted| ==> b.attempted[i] == Transmission(s.registry[i].conn, Framed(msg))
    ensures b.failed.None? <==>
      forall i :: 0 <= i < |s.registry| ==> CanSend(s.registry[i].conn, s.closed, connected, writeOk)
    ensures b.failed.None? ==> |b.attempted| == |s.registry|
    ensures b.failed.Some? ==> b.failed.value in Connections(s.registry)
  {
    SendEach(s.registry, s.closed, msg, connected, writeOk)
  }

  /** A broadcast whose first registered client is no longer connected
      throws at that client's `GetStream()` and writes nothing. */
  lemma SendToDisconnected(s: Server, msg: string, connected: Connection -> bool, writeOk: Connection -> bool)
    requires |s.registry| > 0 && !connected(s.registry[0].conn)
    ensures SendAll(s, msg, connected, writeOk) == Broadcast([], Some(s.registry[0].conn))
  {
  }

  /** When every send goes through, every registered client receives the
      message, and whatever chunking its stream applies, its reader recovers
      the message. */
  lemma SendAllDelivers(s: Server, msg: string, connected: Connection -> bool, writeOk: Connection -> bool,
                        i: nat, chunks: seq<ChunkRead>)
    requires forall j :: 0 <= j < |s.registry| ==> CanSend(s.registry[j].conn, s.closed, connected, writeOk)
    requires i < |s.registry|
    requires Delimiter !in msg
    requires IsChunking(chunks, SendAll(s, msg, connected, writeOk).attempted[i].payload)
    ensures SendAll(s, msg, connected, writeOk).attempted[i].to == s.registry[i].conn
    ensures Receive(chunks) == Received(Line(msg), |chunks|)
  {
    ReceiveFramed(msg, chunks);
  }

  /** What disposal does to the outside world. */
  datatype Effect = StopListener | CloseClient(conn: Connection) | DisposeLogger

  function CloseEffects(cs: seq<Connection>): (e: seq<Effect>)
    ensures |e| == |cs|
    ensures forall i :: 0 <= i < |cs| ==> e[i] == CloseClient(cs[i])
  {
    if |cs| == 0 then [] else CloseEffects(cs[..|cs| - 1]) + [CloseClient(cs[|cs| - 1])]
  }

  function Elements(cs: seq<Connection>): set<Connection> {
    set c | c in cs
  }

  /** `client.GetStream()` returns, so that the client can be closed: it has
      not been disposed yet and its socket is still connected (`connected`
      stands for the socket's state, which the network decides). Otherwise
      the call throws. */
  predicate CanClose(c: Connection, closed: set<Connection>, connected: Connection -> bool) {
    connected(c) && c !in closed
  }

  /** Every registered client can be closed in turn: each is connected, none
      is closed yet, and no connection is registered twice. */
  predicate AllClosable(reg: Registry, closed: set<Connection>, connected: Connection -> bool) {
    && (forall i :: 0 <= i < |reg| ==> CanClose(reg[i].conn, closed, connected))
    && (forall i, j :: 0 <= i < j < |reg| ==> reg[i].conn != reg[j].conn)
  }

  /** The clients the closing loop closed, in order, and the client whose
      `GetStream()` threw, if any; the exception ends the loop. */
  datatype Closing = Closing(done: seq<Connection>, failed: Option<Connection>)

  function CloseEach(reg: Registry, closed: set<Connection>, connected: Connection -> bool): (c: Closing)
    ensures |c.done| <= |reg|
    ensures forall i :: 0 <= i < |c.done| ==> c.done[i] == reg[i].conn && CanClose(c.done[i], closed, connected)
    ensures forall i, j :: 0 <= i < j < |c.done| ==> c.done[i] != c.done[j]
    ensures c.failed.None? ==> |c.done| == |reg|
    ensures c.failed.Some? ==>
      && |c.done| < |reg|
      && c.failed.value == reg[|c.done|].conn
      && !CanClose(c.failed.value, closed + Elements(c.done), connected)
    decreases |reg|
  {
    if |reg| == 0 then Closing([], None)
    else
      var first := reg[0].conn;
      if !CanClose(first, closed, connected) then
        assert Elements([]) == {};
        Closing([], Some(first))
      else
        var rest := CloseEach(reg[1..], closed + {first}, connected);
        assert Elements([first] + rest.done) == {first} + Elements(rest.done);
        Closing([first] + rest.done, rest.failed)
  }

  /** The closing loop runs to the end exactly when every registered client
      can be closed in turn. */
  lemma CloseEachCompletes(reg: Registry, closed: set<Connection>, connected: Connection -> bool)
    ensures CloseEach(reg, closed, connected).failed.None? <==> AllClosable(reg, closed, connected)
  {
    var c := CloseEach(reg, closed, connected);
    if c.failed.Some? {
      var k := |c.done|;
      if CanClose(reg[k].conn, closed, connected) {
        assert reg[k].conn in Elements(c.done);
        var i :| 0 <= i < k && c.done[i] == reg[k].conn;
        assert reg[i].conn == reg[k].conn;
      }
    }
  }

  /** The outcome of a `Dispose` call: the state after it, what it did, and
      the client whose `GetStream()` threw, ending the call, if any. */
  datatype Disposal = Disposal(server: Server, effects: seq<Effect>, failed: Option<Connection>)

  /** `Dispose(bool)`. A call on a disposed server does nothing. Otherwise,
      with `disposing`, it stops the listener and closes the registered
      clients in order; when every close goes through it disposes the logger
      and sets the flag, but a `GetStream()` that throws ends the call there,
      with the flag still clear. Without `disposing` it only sets the flag.
      The registry and the queue are never cleared. */
  function Dispose(s: Server, disposing: bool, connected: Connection -> bool): (d: Disposal)
    ensures s.disposed ==> d == Disposal(s, [], None)
    ensures d.server.registry == s.registry && d.server.queue == s.queue
    ensures !disposing ==> d == Disposal(s.(disposed := true), [], None)
    ensures d.failed.None? <==> s.disposed || !disposing || AllClosable(s.registry, s.closed, connected)
    ensures !s.disposed && disposing && d.failed.None? ==>
      && d.effects == [StopListener] + CloseEffects(Connections(s.registry)) + [DisposeLogger]
      && d.server.disposed && !d.server.loggerOpen
    ensures !s.disposed && disposing && d.failed.Some? ==>
      && !d.server.disposed && d.server.loggerOpen == s.loggerOpen
      && DisposeLogger !in d.effects
      && d.failed.value in Connections(s.registry)
  {
    if s.disposed then Disposal(s, [], None)
    else if !disposing then Disposal(s.(disposed := true), [], None)
    else
      var c := CloseEach(s.registry, s.closed, connected);
      CloseEachCompletes(s.registry, s.closed, connected);
      var stopped := s.(listener := s.listener.(started := false), closed := s.closed + Elements(c.done));
      var effects := [StopListener] + CloseEffects(c.done);
      if c.failed.None? then
        assert c.done == Connections(s.registry);
        Disposal(stopped.(loggerOpen := false, disposed := true), effects + [DisposeLogger], None)
      else
        Disposal(stopped, effects, c.failed)
  }

  /** A managed disposal always stops the listener first, and it closes
      only clients not closed before, which are then recorded as closed. */
  lemma DisposeClosesFresh(s: Server, connected: Connection -> bool)
    requires !s.disposed
    ensures var d := Dispose(s, true, connected);
      && |d.effects| > 0 && d.effects[0] == StopListener
      && !d.server.listener.started
      && s.closed <= d.server.closed
      && (forall c :: CloseClient(c) in d.effects ==> c !in s.closed && c in d.server.closed)
  {
    var d := Dispose(s, true, connected);
    var c := CloseEach(s.registry, s.closed, connected);
    var closes := CloseEffects(c.done);
    assert d.effects == [StopListener] + closes || d.effects == [StopListener] + closes + [DisposeLogger];
    assert d.server.closed == s.closed + Elements(c.done);
    forall x | CloseClient(x) in d.effects
      ensures x !in s.closed && x in d.server.closed
    {
      assert CloseClient(x) in closes;
      var i :| 0 <= i < |closes| && closes[i] == CloseClient(x);
      assert c.done[i] == x;
    }
  }

  /** Once a disposal has gone through, a further one, of either kind,
      changes nothing and has no effect. */
  lemma DisposeIdempotent(s: Server, first: bool, second: bool, connected: Connection -> bool)
    ensures Dispose(s, first, connected).failed.None? ==>
      Dispose(Dispose(s, first, connected).server, second, connected) == Disposal(Dispose(s, first, connected).server, [], None)
  {
  }

  /** When a close throws, the next `Dispose()` stops the listener again and
      then throws at the first registered client: that one was closed by the
      first call or could not be closed at all. So the flag is never set. */
  lemma DisposeRetry(s: Server, connected: Connection -> bool)
    requires !s.disposed && !AllClosable(s.registry, s.closed, connected)
    ensures var first := Dispose(s, true, connected);
      && first.failed.Some? && !first.server.disposed
      && Dispose(first.server, true, connected) == Disposal(first.server, [StopListener], Some(s.registry[0].conn))
  {
    var first := Dispose(s, true, connected);
    var c := CloseEach(s.registry, s.closed, connected);
    var s2 := first.server;
    assert s2 == s.(listener := s.listener.(started := false), closed := s.closed + Elements(c.done));
    var x := s.registry[0].conn;
    assert !CanClose(x, s2.closed, connected) by {
      CloseEachCompletes(s.registry, s.closed, connected);
      if |c.done| > 0 {
        assert c.done[0] == x;
      } else {
        assert Elements(c.done) == {};
      }
    }
    assert CloseEach(s2.registry, s2.closed, connected) == Closing([], Some(x));
    assert Elements([]) == {};
    assert s2.closed + Elements([]) == s2.closed;
  }

  /** The public `Dispose()` called `n` times, each exception caught by the
      caller: the state after, and all the effects of all the calls, in
      order. */
  datatype Repeated = Repeated(server: Server, effects: seq<Effect>)

  function DisposeTimes(s: Server, n: nat, connected: Connection -> bool): (d: Repeated)
    ensures n > 0 ==>
      (&& |Dispose(s, true, connected).effects| <= |d.effects|
       && d.effects[..|Dispose(s, true, connected).effects|] == Dispose(s, true, connected).effects)
    ensures d.server.registry == s.registry && d.server.queue == s.queue
    decreases n
  {
    if n == 0 then Repeated(s, [])
    else
      var first := Dispose(s, true, connected);
      var later := DisposeTimes(first.server, n - 1, connected);
      assert (first.effects + later.effects)[..|first.effects|] == first.effects;
      Repeated(later.server, first.effects + later.effects)
  }

  lemma {:induction false} DisposeTimesDisposed(s: Server, n: nat, connected: Connection -> bool)
    requires s.disposed
    ensures DisposeTimes(s, n, connected) == Repeated(s, [])
    decreases n
  {
    if n > 0 {
      DisposeTimesDisposed(s, n - 1, connected);
    }
  }

  lemma {:induction false} ClosesCount(cs: seq<Connection>, c: Connection)
    ensures multiset(CloseEffects(cs))[CloseClient(c)] == multiset(cs)[c]
    decreases |cs|
  {
    if |cs| > 0 {
      var init := cs[..|cs| - 1];
      var last := cs[|cs| - 1];
      ClosesCount(init, c);
      assert multiset(CloseEffects(cs)) == multiset(CloseEffects(init)) + multiset{CloseClient(last)};
      assert cs == init + [last];
      assert multiset(cs) == multiset(init) + multiset{last};
    }
  }

  /** The effects of a disposal that goes through, counted. */
  lemma FirstDisposalCounts(reg: Registry, c: Connection)
    ensures var e := multiset([StopListener] + CloseEffects(Connections(reg)) + [DisposeLogger]);
      && e[StopListener] == 1
      && e[DisposeLogger] == 1
      && e[CloseClient(c)] == multiset(Connections(reg))[c]
  {
    var closes := CloseEffects(Connections(reg));
    assert StopListener !in closes && DisposeLogger !in closes;
    EffectCounts(closes, c);
    ClosesCount(Connections(reg), c);
  }

  lemma EffectCounts(closes: seq<Effect>, c: Connection)
    requires StopListener !in closes && DisposeLogger !in closes
    ensures var e := multiset([StopListener] + closes + [DisposeLogger]);
      && e[StopListener] == 1
      && e[DisposeLogger] == 1
      && e[CloseClient(c)] == multiset(closes)[CloseClient(c)]
  {
    assert multiset([StopListener] + closes + [DisposeLogger])
      == multiset([StopListener]) + multiset(closes) + multiset([DisposeLogger]);
  }

  /** When every registered client can be closed, however often `Dispose()`
      is called, the listener is stopped once, the logger disposed once, and
      each registered client closed as many times as it is registered (once)
      while nothing else is closed. */
  lemma DisposeClosesOnce(s: Server, n: nat, c: Connection, connected: Connection -> bool)
    requires !s.disposed && n > 0
    requires AllClosable(s.registry, s.closed, connected)
    ensures var e := multiset(DisposeTimes(s, n, connected).effects);
      && e[StopListener] == 1
      && e[DisposeLogger] == 1
      && e[CloseClient(c)] == multiset(Connections(s.registry))[c]
  {
    var first := Dispose(s, true, connected);
    assert first.server.disposed;
    DisposeTimesDisposed(first.server, n - 1, connected);
    assert DisposeTimes(s, n, connected).effects == first.effects + [];
    FirstDisposalCounts(s.registry, c);
  }

  /** When some registered client cannot be closed, every `Dispose()` call
      stops the listener, only the first one closes clients (each at most
      once), the logger is never disposed and the flag never set. */
  lemma DisposeKeepsFailing(s: Server, n: nat, connected: Connection -> bool)
    requires !s.disposed && n > 0
    requires !AllClosable(s.registry, s.closed, connected)
    ensures var d := DisposeTimes(s, n, connected);
      && d.effects == Dispose(s, true, connected).effects + seq(n - 1, _ => StopListener)
      && !d.server.disposed && d.server.loggerOpen == s.loggerOpen
  {
    DisposeRetry(s, connected);
    DisposeTimesStuck(Dispose(s, true, connected).server, n - 1, connected);
  }

  /** A server whose disposal throws before doing anything but stop the
      listener stays as it is, however often it is disposed. */
  lemma {:induction false} DisposeTimesStuck(s: Server, m: nat, connected: Connection -> bool)
    requires !s.disposed
    requires Dispose(s, true, connected).server == s
    requires Dispose(s, true, connected).effects == [StopListener]
    ensures DisposeTimes(s, m, connected) == Repeated(s, seq(m, _ => StopListener))
    decreases m
  {
    if m > 0 {
      DisposeTimesStuck(s, m - 1, connected);
      assert [StopListener] + seq(m - 1, _ => StopListener) == seq(m, _ => StopListener);
    }
  }

  /** A broadcast after a disposal that closed the first registered client
      (it could be closed, so the first `Dispose()` closed it, whether or not
      the call went through) throws at that client and writes nothing. */
  lemma SendAfterDispose(s: Server, msg: string, writeOk: Connection -> bool, connected: Connection -> bool)
    requires !s.disposed && |s.registry| > 0
    requires CanClose(s.registry[0].conn, s.closed, connected)
    ensures SendAll(Dispose(s, true, connected).server, msg, connected, writeOk) == Broadcast([], Some(s.registry[0].conn))
  {
    var c := CloseEach(s.registry, s.closed, connected);
    assert c.done[0] == s.registry[0].conn;
  }
}

=== FILE: wrappers.dfy ===
/** Failure-carrying datatypes shared by the modules of the model.
    `Option` stands for C#'s nullable references, `Result` for
    operations that either produce a value or throw. */
module Wrappers {

  datatype Option<+T> = None | Some(value: T)

  datatype Result<+T, +E> = Ok(value: T) | Err(error: E)
}
